=== FILE: README.md ===
# Federation engine of the web-annotation service, in Dafny

This project models the decision logic of a small federated annotation
service. Readers attach notes to web pages. The notes travel between
instances and to an aggregator over the ActivityPub protocol. The model
covers these parts:

- **Outbound delivery** (`Delivery`). One activity is POSTed to one remote
  inbox. The request is signed once and sent again on every attempt. Server
  errors and transport failures are retried, at most five attempts in all,
  with pauses of 2, 4, 8 and 16 seconds. Any other failing status stops at
  once.
- **Request signing** (`Signature`). The six request headers are built in the
  layout of draft-cavage-http-signatures-12. The signing string follows its
  section 2.3 and the `Signature` parameters its section 2.1. The `Digest`
  header takes the form of section 4.3.2 of RFC 3230. SHA-256, base64 and RSA
  signing are opaque function values.
- **Key registry** (`Keys`). The instance key pair is loaded from the key
  file. If the file is missing or unreadable, a new pair is generated and
  written. The backend and the aggregator share this logic.
- **Backend federation handlers** (`BackendFederation`, over `Annotations`):
  - Incoming replies inherit their parent's page. A reply with no known
    parent is dropped. A re-delivered note that carries an id is ignored.
  - A follow is recorded and answered with one Accept.
  - An undone follow removes the follower.
  - The actor, key-pair and followers dispatchers are included.
  - The store is abstract: annotations by id, users by handle and follower
    inboxes by follower id.
- **Legacy standalone server** (`LegacyServer`). This is the older
  list-based server. It covers the per-client rate limiter (50 requests per
  second), the annotation query and create endpoints, the actor profile, the
  outbox and the inbox.
- **Aggregator**:
  - `AggregatorStore`: the note list with append-if-new.
  - `AggregatorFederation`: the Create(Note) handler and the `index`-only
    dispatchers.
  - `AggregatorApi`: page search and subscribing to a remote actor.

Several things the code reads from its environment become parameters:

- the network's answers to the delivery attempts;
- actor look-ups and whether sending throws;
- clock readings;
- random UUIDs;
- the key generator's output;
- the state of the files the code reads.

Shared helpers are in `Base` (optional values, JavaScript truthiness),
`Text` (`split`, `join`, `includes`, lower-casing) and `Seqs` (`filter`).

Some behaviours of the code worth stating plainly, since the model follows
them:

- The inbox has no handler for `Announce`. An Announce is handled like any
  other unlisted activity and changes nothing.
- The backend never takes a target from the incoming note, for example from
  a link tag. A note is kept only when it replies to a stored annotation that
  has a non-empty href.
- Delivery stops at once on every unsuccessful status below 500, not only
  on 4xx. A response whose body cannot be read is retried whatever its
  status, because reading the body throws inside the same `try` as the fetch.
- An incoming note without an id is filed under `temp-` followed by the
  current time in milliseconds (apps/backend/fedify.ts:131). Re-delivering
  it at a later time stores it again under a new id, so duplicate
  suppression works only for notes that carry an id.
- `deliverActivity` signs with the single instance key pair read from the
  backend's key file (apps/backend/federation.ts:4), and the aggregator's
  `index` actor uses its own single key file (apps/aggregator/db.ts:42-64).
  The backend's federation dispatchers instead serve each user's own key
  pair (apps/backend/fedify.ts:103-109). Both advertise or sign under the key
  id `<actor id>#main-key`, so a delivery made for a backend user is signed
  with a key other than the one that user's actor document advertises,
  unless the two pairs coincide. No caller of `deliverActivity` is part of
  this model, so this is recorded here and not as a defect.

## Model

| member | source | states |
|---|---|---|
| Delivery.DeliverActivity | apps/backend/federation.ts:6-60 | At most 5 and at least 1 attempts. Every attempt sends the same POST: the body, the inbox URL, and headers signed once under `actorId#main-key`. Delivery succeeds iff the last attempt got a 2xx response. Every earlier attempt failed transiently, so no attempt follows the first 2xx. A non-2xx status below 500 ends with failure. One pause follows each failed attempt but the last, and pause k is 1000·2^k ms. The attempt count equals the reference count `AttemptsFrom`. |
| Delivery.AttemptsFromShape | apps/backend/federation.ts:25-57 | Reference policy: every attempt before the last failed transiently, and the last attempt is decisive unless it was the fifth. |
| Delivery.AlwaysFailing | apps/backend/federation.ts:28-59 | An inbox that always fails transiently gets exactly 5 attempts, with pauses of 2000, 4000, 8000 and 16000 ms, 30000 ms in all. |
| Signature.SignRequestHeaders | apps/backend/signature.ts:3-34 | Exactly six headers: Date, Host, Digest, Signature, Content-Type and Accept. Date and Host are the clock reading and the URL host. Digest is `SHA-256=` followed by base64(sha256(body)). Signature is the parameter list over the RSA signature of the signing string. Content-Type and Accept are both `application/activity+json`. |
| Signature.SigningStringLines | apps/backend/signature.ts:10-18 | Split at line breaks, the signing string is exactly four `name: value` lines in the order (request-target), host, date, digest. The request target is the lower-cased method, a space and the path. The host, date and digest values are the ones the returned headers carry. |
| Signature.SignatureHeaderParams | apps/backend/signature.ts:17-24 | Split at commas, the Signature header gives the parameters keyId, algorithm, headers and signature, in that order. keyId is the given key id and algorithm is `rsa-sha256`. The headers parameter split at spaces is exactly the four signed names, in signing order. signature is the signature of the signing string. |
| Signature.RequestTargetIgnoresQuery | apps/backend/signature.ts:13 | The query string of the URL has no effect on any header. This is a framing statement that holds by construction, since the signer reads only the path. |
| Keys.GetOrCreateKeyPair | apps/backend/keys.ts:10-32 | A readable key file's pair is returned unchanged and nothing is written. A missing or corrupt file makes the generator run with algorithm `rsa`, modulus length 2048, an SPKI public key in PEM format and a PKCS#8 private key in PEM format. The generated pair is written and returned. Afterwards the file always holds the returned pair. |
| Keys.SecondCallStable | apps/aggregator/db.ts:42-64 | After any call, a second call returns the same pair, writes nothing and generates nothing, whatever the generator would produce. The aggregator's copy of the function is the same logic. |
| BackendFederation.ProcessIncomingNote | apps/backend/fedify.ts:125-167 | An annotation is added iff the note replies (`inReplyTo` truthy) to a stored annotation with a non-empty href, and its id is not yet stored. Only that id is added and stored entries stay unchanged. The new annotation's target is the parent's href with no selector. It keeps `inReplyTo`, and content, author and published get their defaults ("", "unknown", now). |
| BackendFederation.IngestIdempotent | apps/backend/fedify.ts:160-165 | For a note that carries an id, ingesting it a second time, at any clock reading, leaves the store as the first ingestion left it. |
| BackendFederation.IdlessRedeliveryDuplicates | apps/backend/fedify.ts:131 | A reply without an id that is ingested at two different clock readings is stored twice, under `temp-<first>` and `temp-<second>`, both on the parent's page. |
| BackendFederation.IngestIgnoresNoteTarget | apps/backend/fedify.ts:135-149 | The target carried by the note itself never changes the outcome. |
| BackendFederation.IngestKeepsWellKeyed | apps/backend/fedify.ts:149-165 | If every stored annotation is filed under its own id before ingestion, that still holds afterwards. |
| BackendFederation.ReplyLandsOnParentPage | apps/backend/inbound_test.ts:12-55 | A new reply to a stored parent with a non-empty href is stored on the parent's page, with `inReplyTo` set to the parent's id. |
| BackendFederation.ProcessFollow | apps/backend/fedify.ts:170-210 | Nothing is written and nothing is sent when the object is missing, the handle (the last path segment of the object) is unknown, or the actor is missing. Otherwise the follower is recorded with the looked-up Person's inbox. If there is none, or the look-up threw, returned null or found a non-Person, the inbox is `actor + "/inbox"`. Exactly one Accept is then sent to that inbox as the followed handle. Its actor is the Follow's object and its object is the Follow. |
| BackendFederation.ProcessUndo | apps/backend/fedify.ts:212-221 | An Undo of a Follow that has an actor removes that actor from the followers. Any other Undo changes nothing, and the annotations and users are never touched. |
| BackendFederation.FollowUndoCycle | apps/backend/follower_test.ts:29-85 | After an accepted Follow, the follower is recorded and the one Accept goes to the recorded inbox. An Undo of a Follow by the same actor then leaves the followers as before minus that actor. |
| BackendFederation.FollowOfLocalActor | apps/backend/fedify.ts:173-184 | A Follow whose object is a local actor's own URI is accepted, and the handle read back out of the URI is the handle it was built from. |
| Text.LastSegmentAfterSlash | apps/backend/fedify.ts:177-178 | The last `/`-separated segment of `prefix/h` is `h` whenever `h` has no slash. |
| BackendFederation.DispatchKeyPairs | apps/backend/fedify.ts:102-110 | An unknown handle gets no key pairs. A known handle gets one pair holding that user's keys. |
| BackendFederation.DispatchActor | apps/backend/fedify.ts:69-101 | There is no actor for an unknown handle. Otherwise the actor's id is the handle's actor URI, and its inbox, outbox and followers URLs hang off that id. The key id is `id#main-key`, owned by the id and used as assertion method. The public key is the first pair's public key from the key-pair dispatcher. |
| BackendFederation.FollowersCollection | apps/backend/fedify.ts:118-122 | The collection holds exactly the recorded followers, each with its recorded inbox. |
| BackendFederation.FollowerListed | apps/backend/follower_test.ts:36-64 | After an accepted Follow, the followers collection lists the follower with the inbox the Accept was sent to, and still lists every other follower with its inbox. |
| BackendFederation.Receive | apps/backend/fedify.ts:224-240 | A Create of a Note is ingested. A Create of anything else, and any unlisted activity, changes nothing. Follow and Undo go to their handlers. Users never change, and only a Follow sends anything. |
| BackendFederation.ReceiveCreateIdempotent | apps/backend/fedify.ts:227-234 | For a note that carries an id, delivering the same Create(Note) twice, in any two environments, has the effect of delivering it once. |
| LegacyServer.RateLimit | apps/backend/main.ts:64-80 | Only timestamps less than 1000 ms old are kept. With 50 or more left, the answer is 429 and the table is unchanged. Otherwise the request passes and only this client's entry is replaced, by the kept timestamps plus `now`. That entry then holds at most 50 timestamps, all inside the window. |
| LegacyServer.AtMostFiftyPerSecond | apps/backend/main.ts:63-80 | Whatever the table held before, at most 50 requests from one client pass within any one-second window. |
| LegacyServer.QueryAsWritten | apps/backend/main.ts:91-101 | GET /api/annotations as the code stands: 400 without a url, and 500 once any stored record lacks a target. Otherwise the result is the stored records whose href equals the url or occurs in it, each as often as stored and in stored order. |
| LegacyServer.Query | apps/backend/main.ts:91-101 | The corrected query, which skips records without a target: 400 without a url, and never 500. The result is the stored records that have a target whose href equals the url or occurs in it, each as often as stored and in stored order. |
| LegacyServer.UntargetedNoteBreaksQuery | apps/backend/main.ts:187-198 | The query as written fails (500) once the inbox has accepted a note without a target. |
| LegacyServer.MatchesIsContainment | apps/backend/main.ts:98 | The exact-match test adds nothing to containment, and an empty href matches every url. |
| LegacyServer.QueryAgreesWhenTargeted | apps/backend/main.ts:95-98 | When every record has a target, the corrected query answers exactly as the query as written. |
| LegacyServer.CreateAnnotation | apps/backend/main.ts:104-129 | The request is rejected iff content, target or target.href is missing or empty, and a rejection leaves the store unchanged. Otherwise exactly one record is appended. Its id is under `HOST/annotations/`, and it keeps the content, href and selector. The author defaults to `HOST/users/guest`. |
| LegacyServer.CreatedIsFound | apps/backend/test_api.ts:52-85 | A created annotation is returned by the corrected query for its own page. When every record stored before it has a target, the query as written gives the same answer, so it returns the annotation too. |
| LegacyServer.CreatedInOutbox | apps/backend/main.ts:104-178 | An annotation created with an actor's id as its author is listed in that actor's outbox, wrapped in a Create by that actor. |
| LegacyServer.ActorProfile | apps/backend/main.ts:134-156 | Every name has a profile. Its preferred username is the name. Its inbox and outbox are `id/inbox` and `id/outbox`. Its key id is the one deliveries sign under (`id#main-key`), owned by the id, with the fixed mock public key. |
| LegacyServer.ActorProfileLayout | apps/backend/main.ts:134-156 | The id is `http://localhost:8080/users/<name>` and the preferred username is the name. The name is the last path segment of the profile id. The inbox and outbox are `id/inbox` and `id/outbox`, and the inbox ends in `/users/<name>/inbox`. The key id is the one deliveries sign under, and its owner is the id. |
| LegacyServer.Outbox | apps/backend/main.ts:159-178 | The collection id is the profile's outbox. totalItems is the number of items. Each item is a Create by the actor of a record attributed to it. The records are exactly those attributed to the actor, each as often as stored and in stored order. |
| LegacyServer.ReceiveInbox | apps/backend/main.ts:181-198 | For a body that parses to a JSON object, always 202. A Create whose object is a Note is appended verbatim iff no stored record has its id. Anything else leaves the store unchanged. |
| LegacyServer.InboxKeepsIdsUnique | apps/backend/main.ts:187-195 | If stored ids are unique before, they are unique after, and a repeated delivery changes nothing. |
| AggregatorStore.LoadNotes | apps/aggregator/db.ts:14-21 | A missing or corrupt notes file reads as the empty list. |
| AggregatorStore.AddNote | apps/aggregator/db.ts:27-33 | A note with a known id leaves the list unchanged, even if other fields differ. Otherwise the note is appended at the end and the earlier entries are unchanged. Afterwards the id is present. |
| AggregatorStore.AddNoteToFile | apps/aggregator/db.ts:27-33 | A new note is written after whatever could be loaded, so a corrupt file's content is dropped. A known id leaves the file untouched. |
| AggregatorStore.AddNoteIdempotent | apps/aggregator/db.ts:27-33 | Adding a note, then any note with the same id, is the same as adding the first note once. |
| AggregatorStore.AddNoteToFileIdempotent | apps/aggregator/db.ts:27-33 | Adding the same note to the file twice is adding it once. |
| AggregatorStore.AddNoteKeepsIdsUnique | apps/aggregator/db.ts:29-30 | If note ids are unique before `addNote`, they are unique after. |
| AggregatorFederation.TargetUrl | apps/aggregator/fedify.ts:88-95 | The url is the note's `target.href` when that is non-empty. Otherwise it is `unknown-reply` for a reply, and `""` for anything else. |
| AggregatorFederation.Aggregate | apps/aggregator/fedify.ts:97-104 | The aggregated note keeps the id, author and published time, stores a missing content as `""`, and is filed under `TargetUrl` with the given origin. |
| AggregatorFederation.Receive | apps/aggregator/fedify.ts:81-109 | Only a Create of a Note reaches `addNote`. Accepts and everything else change nothing. |
| AggregatorFederation.UntargetedNoteKept | apps/aggregator/fedify.ts:89-104 | A new note with neither target nor reply parent is still stored, under the empty url. |
| AggregatorFederation.DispatchKeyPairs | apps/aggregator/fedify.ts:69-73 | Any handle other than `index` gets no key pairs and the key file is untouched. `index` gets the registry's pair. |
| AggregatorFederation.DispatchActor | apps/aggregator/fedify.ts:49-68 | Only `index` has an actor. Its id is the `index` actor URI, with inbox, outbox and key id hanging off it, and its public key comes from the key registry. |
| AggregatorApi.Search | apps/aggregator/main.ts:28-36 | With a url, the result is the notes whose targetUrl equals it, each as often as stored and in stored order. Without one, it is every note unchanged. |
| AggregatorFederation.IndexDispatchersAgree | apps/aggregator/fedify.ts:49-73 | The `index` actor advertises the public half of the one pair the key-pairs dispatcher returns, and both dispatchers leave the key file in the same state. A second dispatch on that file gives the same actor and writes nothing. |
| AggregatorApi.SearchMembership | apps/aggregator/main.ts:32-34 | A note is in the result of a search for a url iff it is stored and filed under that url. |
| AggregatorApi.Subscribe | apps/aggregator/main.ts:39-71 | A missing targetActor gives 400. A targetActor that is not a URL, or a look-up that throws, gives 500. An unresolved target or one without an inbox gives 404. None of these sends anything. Otherwise exactly one Follow is sent as `index` to the target's inbox, and the answer is 500 if sending throws and 200 if not. The Follow's actor is the `index` actor URI and its object is targetActor. |
| AggregatorApi.SubscribeSucceeds | apps/aggregator/main.ts:55-66 | The answer is 200 iff one Follow was sent and sending did not throw. That Follow's actor is the id of the actor the `index` dispatcher serves. |
| AggregatorApi.ReceivedNoteIsFound | apps/aggregator/fedify.ts:88-104 | After a Create of a note with a new id, a search for any non-empty url gives the earlier results for that url. The new note is appended at the end iff `TargetUrl` filed it under that url, so replies without a target are found under `unknown-reply`. |
| AggregatorApi.TargetedNoteIsFound | apps/aggregator/main.ts:28-36 | A new note with a non-empty `target.href` is returned by a search for that href once it has been received. |
| Text.Includes | apps/backend/main.ts:98 | `includes` holds iff the needle occurs at some position of the text. |

## Findings

| source | as written | input that shows it | evidently intended | confidence | as-written member | corrected member |
|---|---|---|---|---|---|---|
| apps/backend/main.ts:98 | The annotation query reads the target's href of every stored record. The inbox (lines 187-195) stores any incoming Note verbatim, including one without a target, so that read throws and the query answers 500. | POST a Create whose Note has no `target` to `/users/alice/inbox` (202), then GET `/api/annotations?url=https://example.com` | records without a target are skipped by the query | medium; not executed | LegacyServer.QueryAsWritten, LegacyServer.UntargetedNoteBreaksQuery | LegacyServer.Query |

## Left out

- Network, file and clock access. Fetch results, actor look-ups, send failures, clock readings, random UUIDs, generator output and file contents are parameters. Sleeps are recorded as a list of durations.
- Cryptography: SHA-256, base64 and RSA signing are opaque function values. Importing PEM text into platform keys (apps/backend/fedify.ts:43-66, apps/aggregator/fedify.ts:29-46) is a foreign call and is not modelled; key material stays as PEM text.
- URL parsing is taken as given: a URL is its text with its host, path and query. `new URL(targetActor)` normalising the text is not modelled.
- JSON serialisation of the activity body and the key file is taken as exact: what is written reads back as the same value.
- The federation library's routing, `instanceof` checks and object fetching are modelled as tags on the incoming activity. Its URI scheme is taken to be `origin/users/<handle>`.
- The backend's outbox dispatcher (apps/backend/fedify.ts:113-115) always returns an empty collection and has nothing to state.
- Logging, CORS headers, the private-network header and framework set-up (apps/backend/main.ts:82-86, apps/aggregator/main.ts:10-25).
- Concurrency: the read-then-write duplicate check and fire-and-forget delivery are modelled as sequential steps.
- The store functions `getAnnotation`, `saveAnnotation`, `getUser`, `addFollower`, `removeFollower` and `loadFollowers` are not defined in apps/backend/db.ts. They are modelled as map lookup, insert by id, insert-or-replace of a follower and delete of a follower.
- The browser extension, the operational scripts and the test files are not part of this model; the tests are cited only as evidence of expected outcomes.
- Text.ToLower: lower-cases ASCII letters only, where JavaScript lower-cases all of Unicode.
- LegacyServer.ReceiveInbox: the body is taken as already parsed into an activity. A body that is not JSON (apps/backend/main.ts:183), or the JSON value `null` (which makes line 187 throw), gets 500 from the framework, and the model does not represent it.
- LegacyServer.CreateAnnotation: likewise, a body that is not JSON (apps/backend/main.ts:105), or the JSON value `null` (which makes the destructuring at line 106 throw), gets 500 and is not represented. Field values that are not strings are not represented either: `content`, `target.href` and `author` are absent or strings in the model, whereas the code stores `content: true` and rejects `content: 0` by truthiness.
- AggregatorApi.Subscribe: the body is taken as already parsed. Reading it and destructuring `targetActor` happen outside the `try` (apps/aggregator/main.ts:40), so a body that is not JSON, or the JSON value `null`, gets 500 from the framework rather than 400. `Option<string>` cannot express these cases.
- AggregatorStore.LoadNotes: a notes file that parses to a JSON value other than an array is returned as-is by apps/aggregator/db.ts:17 and makes `addNote` throw at line 29. `NotesFile` cannot express this case.
- Keys.GetOrCreateKeyPair: a key file that parses as JSON but is not a key pair counts as corrupt, whereas the source would return the parsed value.
- LegacyServer.Query: a stored target whose `href` is absent or not a string is not modelled. The target either is absent or has a string href.
- BackendFederation.FollowersCollection: the collection is a set, so the order in which followers were added is not kept.
- BackendFederation.ProcessIncomingNote: the temporary id uses the clock reading as given text, and the JSON-LD expansion of the note is taken as already done.

=== FILE: aggregator_api.dfy ===
/** The aggregator's HTTP API: searching aggregated notes by page, and
    subscribing the `index` actor to a remote actor. */
module AggregatorApi {
  import opened Base
  import opened Seqs
  import opened AggregatorStore
  import AggregatorFederation
  import Keys

  const Host := "http://localhost:8082"

  /** GET /api/search: with a url, the notes filed under exactly that url,
      each as often as stored, in stored order; without one, every note. */
  function Search(file: NotesFile, url: Option<string>): (r: seq<AggregatedNote>)
    ensures !Truthy(url) ==> r == LoadNotes(file)
    ensures Truthy(url) ==>
              && Subseq(r, LoadNotes(file))
              && forall n :: multiset(r)[n] == if n.targetUrl == url.value then multiset(LoadNotes(file))[n] else 0
  {
    var notes := LoadNotes(file);
    if Truthy(url) then Filter(notes, (n: AggregatedNote) => n.targetUrl == url.value) else notes
  }

  /** A search for a url returns only notes filed under it, and every such
      note. */
  lemma SearchMembership(file: NotesFile, url: string, n: AggregatedNote)
    requires url != ""
    ensures n in Search(file, Some(url)) <==> n in LoadNotes(file) && n.targetUrl == url
  {
    FilterMembership(LoadNotes(file), (m: AggregatedNote) => m.targetUrl == url, n);
  }

  /** What resolving the target actor gave. */
  datatype TargetLookup = LookupThrew | NotResolved | Resolved(inbox: Option<string>)

  datatype FollowRequest = FollowRequest(id: string, actor: string, target: string)

  /** One `sendActivity` call: sender handle, recipient inbox, activity. */
  datatype Sent = Sent(sender: string, inbox: string, follow: FollowRequest)

  datatype SubscribeResult = SubscribeResult(status: int, sent: seq<Sent>)

  /** POST /api/subscribe. `validUrl` says whether `targetActor` parses as a
      URL, `sendThrew` whether sending failed, `uuid` is the random id part
      and `origin` the origin of the aggregator's actor URIs. */
  function Subscribe(targetActor: Option<string>, validUrl: bool, lookup: TargetLookup,
                     sendThrew: bool, uuid: string, origin: string): (r: SubscribeResult)
    ensures r.status == 400 <==> !Truthy(targetActor)
    ensures r.status == 404 <==>
              Truthy(targetActor) && validUrl && (lookup.NotResolved? || (lookup.Resolved? && lookup.inbox.None?))
    ensures r.status != 200 && r.status != 500 ==> r.sent == []
    ensures Truthy(targetActor) && (!validUrl || lookup.LookupThrew?) ==> r.status == 500 && r.sent == []
    ensures |r.sent| <= 1
    ensures |r.sent| == 1 <==> Truthy(targetActor) && validUrl && lookup.Resolved? && lookup.inbox.Some?
    ensures |r.sent| == 1 ==>
              && r.sent[0].sender == AggregatorFederation.IndexHandle
              && r.sent[0].inbox == lookup.inbox.value
              && r.sent[0].follow.actor == AggregatorFederation.ActorUri(origin, AggregatorFederation.IndexHandle)
              && r.sent[0].follow.target == targetActor.value
              && r.status == (if sendThrew then 500 else 200)
  {
    if !Truthy(targetActor) then SubscribeResult(400, [])
    else if !validUrl then SubscribeResult(500, [])
    else
      var follow := FollowRequest(Host + "/activities/" + uuid,
                                  AggregatorFederation.ActorUri(origin, AggregatorFederation.IndexHandle),
                                  targetActor.value);
      match lookup
      case LookupThrew => SubscribeResult(500, [])
      case NotResolved => SubscribeResult(404, [])
      case Resolved(inbox) =>
        if inbox.None? then SubscribeResult(404, [])
        else SubscribeResult(if sendThrew then 500 else 200,
                             [Sent(AggregatorFederation.IndexHandle, inbox.value, follow)])
  }

  /** Subscribing answers 200 exactly when the Follow went out and sending
      did not fail, and the Follow is sent as the actor the `index`
      dispatcher serves. */
  lemma SubscribeSucceeds(targetActor: Option<string>, validUrl: bool, lookup: TargetLookup,
                          sendThrew: bool, uuid: string, origin: string,
                          keyFile: Keys.KeyFile, generated: Keys.KeyPair)
    ensures var r := Subscribe(targetActor, validUrl, lookup, sendThrew, uuid, origin);
            && (r.status == 200 <==> |r.sent| == 1 && !sendThrew)
            && (|r.sent| == 1 ==>
                  var actor := AggregatorFederation.DispatchActor(AggregatorFederation.IndexHandle, origin, keyFile, generated).0;
                  actor.Some? && r.sent[0].follow.actor == actor.value.id)
  {
  }

  /** Receiving a Create of a new note and then searching round-trips: the
      note is found under the url `TargetUrl` files it under, after every
      note already found there, and a search for any other url is
      unchanged. */
  lemma {:induction false} ReceivedNoteIsFound(file: NotesFile, note: AggregatorFederation.IncomingNote,
                                               originHost: string, url: string)
    requires !HasId(LoadNotes(file), note.id)
    requires url != ""
    ensures var a := AggregatorFederation.Aggregate(note, originHost);
            var file' := AggregatorFederation.Receive(file,
                           AggregatorFederation.CreateActivity(AggregatorFederation.CreatedNote(note)), originHost);
            && (AggregatorFederation.TargetUrl(note) == url ==> Search(file', Some(url)) == Search(file, Some(url)) + [a])
            && (AggregatorFederation.TargetUrl(note) != url ==> Search(file', Some(url)) == Search(file, Some(url)))
  {
    var a := AggregatorFederation.Aggregate(note, originHost);
    var file' := AggregatorFederation.Receive(file,
                   AggregatorFederation.CreateActivity(AggregatorFederation.CreatedNote(note)), originHost);
    assert LoadNotes(file') == LoadNotes(file) + [a];
    FilterAppend(LoadNotes(file), a, (n: AggregatedNote) => n.targetUrl == url);
  }

  /** In particular a note with a target href is found by a search for it. */
  lemma TargetedNoteIsFound(file: NotesFile, note: AggregatorFederation.IncomingNote, originHost: string)
    requires note.target.Some? && Truthy(note.target.value.href)
    requires !HasId(LoadNotes(file), note.id)
    ensures var file' := AggregatorFederation.Receive(file,
                           AggregatorFederation.CreateActivity(AggregatorFederation.CreatedNote(note)), originHost);
            AggregatorFederation.Aggregate(note, originHost) in Search(file', note.target.value.href)
  {
    ReceivedNoteIsFound(file, note, originHost, note.target.value.href.value);
  }
}

=== FILE: aggregator_federation.dfy ===
/** The aggregator's federation handlers: a single local actor, `index`, and
    an inbox that turns every incoming Create(Note) into an aggregated note
    and logs Accepts. */
module AggregatorFederation {
  import opened Base
  import opened AggregatorStore
  import Keys

  /** A target as the note's JSON exposes it. */
  datatype TargetJson = TargetJson(href: Option<string>)

  datatype IncomingNote = IncomingNote(
    id: Option<string>,
    content: Option<string>,
    target: Option<TargetJson>,
    inReplyTo: Option<string>,
    attributedTo: Option<string>,
    published: Option<string>)

  const UnknownReply := "unknown-reply"

  /** The page an incoming note is filed under. */
  function TargetUrl(note: IncomingNote): (url: string)
    ensures note.target.Some? && Truthy(note.target.value.href) ==> url == note.target.value.href.value
    ensures !(note.target.Some? && Truthy(note.target.value.href)) && Truthy(note.inReplyTo) ==> url == UnknownReply
    ensures !(note.target.Some? && Truthy(note.target.value.href)) && !Truthy(note.inReplyTo) ==> url == ""
  {
    if note.target.Some? && Truthy(note.target.value.href) then note.target.value.href.value
    else if Truthy(note.inReplyTo) then UnknownReply
    else ""
  }

  /** The aggregated note made from an incoming note; `originHost` is the host of
      the aggregator's own actor URI. */
  function Aggregate(note: IncomingNote, originHost: string): (a: AggregatedNote)
    ensures a.id == note.id && a.author == note.attributedTo && a.published == note.published
    ensures a.content == OrElse(note.content, "")
    ensures a.targetUrl == TargetUrl(note) && a.origin == originHost
  {
    AggregatedNote(note.id, OrElse(note.content, ""), TargetUrl(note), note.attributedTo, note.published, originHost)
  }

  /** What a Create wraps, once fetched. */
  datatype Created = CreatedNote(note: IncomingNote) | CreatedOther | CreatedNothing

  datatype Activity = CreateActivity(created: Created) | AcceptActivity(actor: Option<string>) | OtherActivity

  /** The inbox listeners. */
  function Receive(file: NotesFile, a: Activity, originHost: string): (r: NotesFile)
    ensures !(a.CreateActivity? && a.created.CreatedNote?) ==> r == file
    ensures a.CreateActivity? && a.created.CreatedNote? ==>
              r == AddNoteToFile(file, Aggregate(a.created.note, originHost))
  {
    match a
    case CreateActivity(CreatedNote(note)) => AddNoteToFile(file, Aggregate(note, originHost))
    case _ => file
  }

  /** Untargeted notes are kept: a fresh note with neither a target nor a
      reply parent is stored under the empty url. */
  lemma UntargetedNoteKept(notes: seq<AggregatedNote>, note: IncomingNote, originHost: string)
    requires note.target.None? && note.inReplyTo.None?
    requires !HasId(notes, note.id)
    ensures var r := Receive(NotesParsed(notes), CreateActivity(CreatedNote(note)), originHost);
            r.NotesParsed? && |r.notes| == |notes| + 1 && r.notes[|notes|].targetUrl == ""
  {
  }

  const IndexHandle := "index"

  datatype Person = Person(
    id: string,
    name: string,
    summary: string,
    preferredUsername: string,
    inbox: string,
    outbox: string,
    keyId: string,
    keyOwner: string,
    publicKeyPem: string,
    assertionMethod: string)

  function ActorUri(origin: string, handle: string): string {
    origin + "/users/" + handle
  }

  /** The key-pairs dispatcher: the instance key pair for `index`, nothing for
      any other handle; `generated` is what the generator would produce. */
  function DispatchKeyPairs(handle: string, keyFile: Keys.KeyFile, generated: Keys.KeyPair)
    : (r: (seq<Keys.KeyPair>, Keys.KeyFile))
    ensures handle != IndexHandle ==> r == ([], keyFile)
    ensures handle == IndexHandle ==>
              var loaded := Keys.GetOrCreateKeyPair(keyFile, generated);
              r == ([loaded.pair], loaded.file)
  {
    if handle != IndexHandle then ([], keyFile)
    else
      var loaded := Keys.GetOrCreateKeyPair(keyFile, generated);
      ([loaded.pair], loaded.file)
  }

  /** The actor dispatcher: only `index` exists. */
  function DispatchActor(handle: string, origin: string, keyFile: Keys.KeyFile, generated: Keys.KeyPair)
    : (r: (Option<Person>, Keys.KeyFile))
    ensures r.0.None? <==> handle != IndexHandle
    ensures handle != IndexHandle ==> r.1 == keyFile
    ensures r.0.Some? ==>
              var id := ActorUri(origin, IndexHandle);
              && r.0.value.id == id && r.0.value.preferredUsername == IndexHandle
              && r.0.value.inbox == id + "/inbox" && r.0.value.outbox == id + "/outbox"
              && r.0.value.keyId == id + "#main-key" && r.0.value.keyOwner == id
              && r.0.value.publicKeyPem == Keys.GetOrCreateKeyPair(keyFile, generated).pair.publicKeyPem
  {
    if handle != IndexHandle then (None, keyFile)
    else
      var (pairs, file') := DispatchKeyPairs(handle, keyFile, generated);
      var id := ActorUri(origin, handle);
      (Some(Person(id, "Commi Aggregator", "I index annotations from across the web.", handle,
                   id + "/inbox", id + "/outbox", id + "#main-key", id, pairs[0].publicKeyPem,
                   id + "#main-key")),
       file')
  }

  /** The two `index` dispatchers serve the same key: the actor advertises
      the public half of the pair the key-pairs dispatcher returns, both
      leave the key file alike, and dispatching again on that file gives the
      same actor and writes nothing. */
  lemma {:induction false} IndexDispatchersAgree(origin: string, keyFile: Keys.KeyFile,
                                                 generated: Keys.KeyPair, other: Keys.KeyPair)
    ensures var actor := DispatchActor(IndexHandle, origin, keyFile, generated);
            var pairs := DispatchKeyPairs(IndexHandle, keyFile, generated);
            && actor.0.Some? && |pairs.0| == 1
            && actor.0.value.publicKeyPem == pairs.0[0].publicKeyPem
            && actor.1 == pairs.1
            && DispatchActor(IndexHandle, origin, actor.1, other) == actor
  {
    Keys.SecondCallStable(keyFile, generated, other);
  }
}

=== FILE: aggregator_store.dfy ===
/** The aggregator's note list: a file of aggregated notes, read as empty
    when missing or corrupt, to which a note is appended only when no stored
    note has its id. */
module AggregatorStore {
  import opened Base

  datatype AggregatedNote = AggregatedNote(
    id: Option<string>,
    content: string,
    targetUrl: string,
    author: Option<string>,
    published: Option<string>,
    origin: string)

  /** The notes file as the reader sees it. */
  datatype NotesFile = NotesMissing | NotesUnparseable | NotesParsed(notes: seq<AggregatedNote>)

  /** `loadNotes`. */
  function LoadNotes(file: NotesFile): (r: seq<AggregatedNote>)
    ensures file.NotesParsed? ==> r == file.notes
    ensures !file.NotesParsed? ==> r == []
  {
    if file.NotesParsed? then file.notes else []
  }

  /** Some stored note carries this id (absent ids compare equal). The legacy
      server has a predicate of the same shape over its own record type; the
      two servers keep separate stores. */
  predicate HasId(notes: seq<AggregatedNote>, id: Option<string>) {
    exists k :: 0 <= k < |notes| && notes[k].id == id
  }

  /** `addNote` on the loaded list. */
  function AddNote(notes: seq<AggregatedNote>, note: AggregatedNote): (r: seq<AggregatedNote>)
    ensures HasId(notes, note.id) ==> r == notes
    ensures !HasId(notes, note.id) ==> |r| == |notes| + 1 && r[..|notes|] == notes && r[|notes|] == note
    ensures HasId(r, note.id)
  {
    if HasId(notes, note.id) then notes
    else
      var r := notes + [note];
      assert r[|notes|].id == note.id;
      r
  }

  /** `addNote` on the file: a new note is written after whatever could be
      loaded, which drops a corrupt file's content; a known id leaves the
      file alone. */
  function AddNoteToFile(file: NotesFile, note: AggregatedNote): (r: NotesFile)
    ensures HasId(LoadNotes(file), note.id) ==> r == file
    ensures !HasId(LoadNotes(file), note.id) ==> r == NotesParsed(LoadNotes(file) + [note])
  {
    var notes := LoadNotes(file);
    if HasId(notes, note.id) then file else NotesParsed(AddNote(notes, note))
  }

  /** Adding the same note twice is adding it once, even when only its id
      matches an earlier note. */
  lemma AddNoteIdempotent(notes: seq<AggregatedNote>, note: AggregatedNote, other: AggregatedNote)
    requires other.id == note.id
    ensures AddNote(AddNote(notes, note), other) == AddNote(notes, note)
  {
  }

  lemma AddNoteToFileIdempotent(file: NotesFile, note: AggregatedNote)
    ensures AddNoteToFile(AddNoteToFile(file, note), note) == AddNoteToFile(file, note)
  {
    var once := AddNoteToFile(file, note);
    assert HasId(LoadNotes(once), note.id);
  }

  /** No two notes share an id. */
  predicate UniqueIds(notes: seq<AggregatedNote>) {
    forall i, j :: 0 <= i < j < |notes| ==> notes[i].id != notes[j].id
  }

  lemma AddNoteKeepsIdsUnique(notes: seq<AggregatedNote>, note: AggregatedNote)
    requires UniqueIds(notes)
    ensures UniqueIds(AddNote(notes, note))
  {
  }
}

=== FILE: annotations.dfy ===
/** The annotation record the backend stores: a note about a web resource,
    optionally narrowed by a selector and optionally replying to another
    annotation. */
module Annotations {
  import opened Base

  datatype SelectorKind = TextQuoteSelector | DOMSelector | TimestampSelector

  datatype Selector = Selector(
    kind: SelectorKind,
    exact: Option<string>,
    prefix: Option<string>,
    suffix: Option<string>,
    start: Option<string>,
    end: Option<string>,
    value: Option<string>)

  datatype Target = Target(href: string, selector: Option<Selector>)

  datatype Annotation = Annotation(
    id: string,
    attributedTo: string,
    content: string,
    target: Target,
    published: string,
    to: Option<seq<string>>,
    cc: Option<seq<string>>,
    inReplyTo: Option<string>)

  /** The annotation store, keyed by annotation id. */
  type Store = map<string, Annotation>

  /** Every annotation is filed under its own id. */
  predicate WellKeyed(store: Store) {
    forall id :: id in store ==> store[id].id == id
  }
}

=== FILE: backend_federation.dfy ===
/** The backend's federation handlers: the actor, key-pair and followers
    dispatchers, and the inbox listeners that ingest replies, record and
    accept follows, and honour undone follows. The store they call is
    abstract: annotations by id, users by handle, follower inboxes by
    follower id. */
module BackendFederation {
  import opened Base
  import opened Text
  import opened Annotations
  import Keys

  /** A URL as the handlers read it: its text and its path. */
  datatype Uri = Uri(href: string, pathname: string)

  datatype User = User(username: string, publicKeyPem: string, privateKeyPem: string)

  datatype State = State(
    annotations: Store,
    users: map<string, User>,
    followers: map<string, string>)

  /** The clock readings used for defaults: `Date.now()` as text and the
      current time in ISO 8601. */
  datatype Clock = Clock(nowMillis: string, nowIso: string)

  /** An incoming Note as its JSON-LD form exposes it; any field may be
      absent. */
  datatype IncomingNote = IncomingNote(
    id: Option<string>,
    content: Option<string>,
    attributedTo: Option<string>,
    published: Option<string>,
    inReplyTo: Option<string>,
    target: Option<Target>)

  // ---------------------------------------------------------------------
  // Note ingestion and target resolution

  /** The id the ingested annotation is filed under. */
  function NoteId(note: IncomingNote, clock: Clock): string {
    OrElse(note.id, "temp-" + clock.nowMillis)
  }

  /** The target href a note inherits: its parent's, when it replies to an
      annotation this store holds; empty otherwise. */
  function InheritedHref(store: Store, note: IncomingNote): string {
    if Truthy(note.inReplyTo) && note.inReplyTo.value in store
    then store[note.inReplyTo.value].target.href
    else ""
  }

  /** Whether ingesting `note` adds an annotation to `store`. */
  predicate Ingests(store: Store, note: IncomingNote, clock: Clock) {
    && Truthy(note.inReplyTo)
    && note.inReplyTo.value in store
    && store[note.inReplyTo.value].target.href != ""
    && NoteId(note, clock) !in store
  }

  /** `processIncomingNote`. */
  function ProcessIncomingNote(store: Store, note: IncomingNote, clock: Clock): (r: Store)
    ensures Ingests(store, note, clock) ==> r.Keys == store.Keys + {NoteId(note, clock)}
    ensures !Ingests(store, note, clock) ==> r == store
    ensures forall k :: k in store ==> k in r && r[k] == store[k]
    ensures forall k :: k in r && k !in store ==>
              && k == NoteId(note, clock)
              && r[k].id == k
              && r[k].target == Target(store[note.inReplyTo.value].target.href, None)
              && r[k].target.href != ""
              && r[k].inReplyTo == note.inReplyTo
              && r[k].content == OrElse(note.content, "")
              && r[k].attributedTo == OrElse(note.attributedTo, "unknown")
              && r[k].published == OrElse(note.published, clock.nowIso)
  {
    var id := NoteId(note, clock);
    var href := InheritedHref(store, note);
    if href != "" && id !in store then
      store[id := Annotation(
        id,
        OrElse(note.attributedTo, "unknown"),
        OrElse(note.content, ""),
        Target(href, None),
        OrElse(note.published, clock.nowIso),
        None, None,
        note.inReplyTo)]
    else store
  }

  /** Re-delivering a note that carries an id changes nothing more, whatever
      the clock reads at each delivery. */
  lemma IngestIdempotent(store: Store, note: IncomingNote, c1: Clock, c2: Clock)
    requires Truthy(note.id)
    ensures var once := ProcessIncomingNote(store, note, c1);
            ProcessIncomingNote(once, note, c2) == once
  {
    var once := ProcessIncomingNote(store, note, c1);
    assert NoteId(note, c2) == NoteId(note, c1);
    if Ingests(store, note, c1) {
      assert NoteId(note, c1) in once;
    }
  }

  /** A reply without an id is filed under `temp-<now>`, so re-delivering it
      at a later clock reading stores it a second time. */
  lemma IdlessRedeliveryDuplicates(store: Store, note: IncomingNote, c1: Clock, c2: Clock)
    requires note.id.None? && c1.nowMillis != c2.nowMillis
    requires Ingests(store, note, c1)
    requires NoteId(note, c2) !in store
    ensures var once := ProcessIncomingNote(store, note, c1);
            var twice := ProcessIncomingNote(once, note, c2);
            && NoteId(note, c1) != NoteId(note, c2)
            && twice.Keys == store.Keys + {NoteId(note, c1), NoteId(note, c2)}
            && twice[NoteId(note, c1)].target == twice[NoteId(note, c2)].target
  {
    var once := ProcessIncomingNote(store, note, c1);
    var t1, t2 := "temp-" + c1.nowMillis, "temp-" + c2.nowMillis;
    assert t1[5..] == c1.nowMillis && t2[5..] == c2.nowMillis;
    assert NoteId(note, c1) == t1 && NoteId(note, c2) == t2;
    assert Ingests(once, note, c2);
  }

  /** The note's own target is never read: only a reply parent supplies one. */
  lemma IngestIgnoresNoteTarget(store: Store, note: IncomingNote, clock: Clock, t: Option<Target>)
    ensures ProcessIncomingNote(store, note.(target := t), clock) == ProcessIncomingNote(store, note, clock)
  {
  }

  /** Ingestion keeps every annotation filed under its own id. */
  lemma IngestKeepsWellKeyed(store: Store, note: IncomingNote, clock: Clock)
    requires WellKeyed(store)
    ensures WellKeyed(ProcessIncomingNote(store, note, clock))
  {
  }

  /** A stored reply to a parent about `https://example.com/a` is itself about
      that page, whatever the note carries. */
  lemma {:induction false} ReplyLandsOnParentPage(store: Store, parent: Annotation, note: IncomingNote, clock: Clock)
    requires WellKeyed(store) && parent.id in store && store[parent.id] == parent
    requires parent.target.href != ""
    requires note.inReplyTo == Some(parent.id) && parent.id != ""
    requires NoteId(note, clock) !in store
    ensures var r := ProcessIncomingNote(store, note, clock);
            && NoteId(note, clock) in r
            && r[NoteId(note, clock)].target.href == parent.target.href
            && r[NoteId(note, clock)].inReplyTo == Some(parent.id)
  {
    assert Ingests(store, note, clock);
  }

  // ---------------------------------------------------------------------
  // Follow, Accept and Undo

  datatype Follow = Follow(id: Option<Uri>, actorId: Option<Uri>, objectId: Option<Uri>)

  /** What looking up the follower's actor document gave. */
  datatype ActorLookup =
    | LookupThrew
    | LookupNull
    | NotAPerson
    | PersonFound(inbox: Option<Uri>)

  datatype Accept = Accept(id: string, actor: Uri, follow: Follow)

  /** One `sendActivity` call: sender handle, recipient id and inbox. */
  datatype Outgoing = Outgoing(sender: string, recipient: Uri, inbox: string, accept: Accept)

  datatype Step = Step(state: State, sent: seq<Outgoing>)

  /** The local handle a follow names: the last segment of its object's path. */
  function FollowedHandle(objectUri: Uri): string {
    LastSegment(objectUri.pathname)
  }

  /** The inbox a follower is recorded with. */
  function FollowerInbox(follower: Uri, lookup: ActorLookup): string {
    if lookup.PersonFound? && lookup.inbox.Some? then lookup.inbox.value.href
    else follower.href + "/inbox"
  }

  predicate FollowAccepted(st: State, f: Follow) {
    f.objectId.Some? && FollowedHandle(f.objectId.value) in st.users && f.actorId.Some?
  }

  /** `processFollow`; `uuid` is the random part of the Accept's id. */
  function ProcessFollow(st: State, f: Follow, lookup: ActorLookup, uuid: string): (r: Step)
    ensures !FollowAccepted(st, f) ==> r == Step(st, [])
    ensures FollowAccepted(st, f) ==>
              var follower := f.actorId.value;
              var inbox := FollowerInbox(follower, lookup);
              && r.state == st.(followers := st.followers[follower.href := inbox])
              && |r.sent| == 1
              && r.sent[0].sender == FollowedHandle(f.objectId.value)
              && r.sent[0].recipient == follower
              && r.sent[0].inbox == inbox
              && r.sent[0].accept.actor == f.objectId.value
              && r.sent[0].accept.follow == f
    ensures (lookup.LookupThrew? || lookup.LookupNull? || lookup.NotAPerson?) && FollowAccepted(st, f) ==>
              r.state.followers[f.actorId.value.href] == f.actorId.value.href + "/inbox"
  {
    if f.objectId.None? then Step(st, [])
    else
      var handle := FollowedHandle(f.objectId.value);
      if handle !in st.users then Step(st, [])
      else if f.actorId.None? then Step(st, [])
      else
        var follower := f.actorId.value;
        var inbox := FollowerInbox(follower, lookup);
        var accept := Accept(f.objectId.value.href + "/accept/" + uuid, f.objectId.value, f);
        Step(st.(followers := st.followers[follower.href := inbox]),
             [Outgoing(handle, follower, inbox, accept)])
  }

  /** What an Undo wraps, once fetched. */
  datatype Undone = UndoneFollow(follow: Follow) | UndoneOther | UndoneNothing

  /** `processUndo`. */
  function ProcessUndo(st: State, undone: Undone): (r: State)
    ensures undone.UndoneFollow? && undone.follow.actorId.Some? ==>
              r == st.(followers := st.followers - {undone.follow.actorId.value.href})
    ensures !(undone.UndoneFollow? && undone.follow.actorId.Some?) ==> r == st
    ensures r.annotations == st.annotations && r.users == st.users
  {
    match undone
    case UndoneFollow(f) =>
      if f.actorId.Some? then st.(followers := st.followers - {f.actorId.value.href}) else st
    case _ => st
  }

  /** Follow then Undo of that Follow leaves the followers as they were,
      except that the follower is gone even if it followed before; the
      single Accept goes to the inbox recorded. */
  lemma FollowUndoCycle(st: State, f: Follow, lookup: ActorLookup, uuid: string, f2: Follow)
    requires FollowAccepted(st, f)
    requires f2.actorId == f.actorId
    ensures var step := ProcessFollow(st, f, lookup, uuid);
            && f.actorId.value.href in step.state.followers
            && |step.sent| == 1 && step.sent[0].inbox == step.state.followers[f.actorId.value.href]
            && ProcessUndo(step.state, UndoneFollow(f2)).followers == st.followers - {f.actorId.value.href}
  {
    var step := ProcessFollow(st, f, lookup, uuid);
    assert step.state.followers - {f.actorId.value.href} == st.followers - {f.actorId.value.href};
  }

  // ---------------------------------------------------------------------
  // Actor, key-pair and followers dispatchers

  /** The URI the federation layer assigns to a local handle. */
  function ActorUri(origin: string, handle: string): Uri {
    Uri(origin + "/users/" + handle, "/users/" + handle)
  }

  /** The key-pairs dispatcher: one pair for a known handle, none otherwise.
      Importing the PEM text into platform keys is not modelled. */
  function DispatchKeyPairs(users: map<string, User>, handle: string): (r: seq<Keys.KeyPair>)
    ensures handle !in users <==> r == []
    ensures handle in users ==>
              |r| == 1 && r[0].publicKeyPem == users[handle].publicKeyPem
              && r[0].privateKeyPem == users[handle].privateKeyPem
  {
    if handle !in users then []
    else [Keys.KeyPair(users[handle].publicKeyPem, users[handle].privateKeyPem)]
  }

  datatype Person = Person(
    id: string,
    name: string,
    summary: string,
    preferredUsername: string,
    inbox: string,
    outbox: string,
    followers: string,
    keyId: string,
    keyOwner: string,
    publicKeyPem: string,
    assertionMethod: string)

  /** The actor dispatcher: no actor for an unknown handle. */
  function DispatchActor(users: map<string, User>, origin: string, handle: string): (p: Option<Person>)
    ensures p.None? <==> handle !in users
    ensures p.Some? ==>
              var id := ActorUri(origin, handle).href;
              && p.value.id == id
              && p.value.preferredUsername == handle
              && p.value.name == users[handle].username
              && p.value.inbox == id + "/inbox"
              && p.value.outbox == id + "/outbox"
              && p.value.followers == id + "/followers"
              && p.value.keyId == id + "#main-key"
              && p.value.keyOwner == id
              && p.value.assertionMethod == p.value.keyId
              && p.value.publicKeyPem == DispatchKeyPairs(users, handle)[0].publicKeyPem
  {
    if handle !in users then None
    else
      var id := ActorUri(origin, handle).href;
      var keys := DispatchKeyPairs(users, handle);
      Some(Person(id, users[handle].username, "I annotate the web.", handle,
                  id + "/inbox", id + "/outbox", id + "/followers",
                  id + "#main-key", id, keys[0].publicKeyPem, id + "#main-key"))
  }

  /** A follow of a local actor's own URI is a follow of that actor: the
      handle read back out of the URI is the handle the URI was built from. */
  lemma FollowOfLocalActor(st: State, origin: string, handle: string, actor: Uri,
                           lookup: ActorLookup, uuid: string)
    requires handle in st.users && '/' !in handle
    ensures var f := Follow(None, Some(actor), Some(ActorUri(origin, handle)));
            && FollowAccepted(st, f)
            && ProcessFollow(st, f, lookup, uuid).sent[0].sender == handle
  {
    LastSegmentAfterSlash("/users", handle);
    assert "/users" + "/" + handle == "/users/" + handle;
  }

  datatype Recipient = Recipient(id: string, inbox: string)

  /** The followers dispatcher: every recorded follower with its inbox. */
  function FollowersCollection(followers: map<string, string>): (items: set<Recipient>)
    ensures forall r :: r in items <==> r.id in followers && followers[r.id] == r.inbox
  {
    set id | id in followers :: Recipient(id, followers[id])
  }

  /** An accepted follower appears in the followers collection with the inbox
      the Accept was sent to, and every other recorded follower stays in it. */
  lemma FollowerListed(st: State, f: Follow, lookup: ActorLookup, uuid: string)
    requires FollowAccepted(st, f)
    ensures var step := ProcessFollow(st, f, lookup, uuid);
            var items := FollowersCollection(step.state.followers);
            && Recipient(f.actorId.value.href, step.sent[0].inbox) in items
            && forall id :: id in st.followers && id != f.actorId.value.href ==>
                 Recipient(id, st.followers[id]) in items
  {
  }

  // ---------------------------------------------------------------------
  // The inbox listener

  /** What a Create wraps, once fetched. */
  datatype Created = CreatedNote(note: IncomingNote) | CreatedPerson | CreatedOther | CreatedNothing

  datatype Activity =
    | CreateActivity(created: Created)
    | FollowActivity(follow: Follow)
    | UndoActivity(undone: Undone)
    | OtherActivity

  /** The environment of one inbound delivery. */
  datatype Env = Env(clock: Clock, lookup: ActorLookup, uuid: string)

  /** The inbox listeners: route an activity to its handler. */
  function Receive(st: State, a: Activity, env: Env): (r: Step)
    ensures r.state.users == st.users
    ensures !a.FollowActivity? ==> r.sent == []
    ensures a.CreateActivity? && a.created.CreatedNote? ==>
              r.state == st.(annotations := ProcessIncomingNote(st.annotations, a.created.note, env.clock))
    ensures a.CreateActivity? && !a.created.CreatedNote? ==> r.state == st
    ensures a.OtherActivity? ==> r.state == st
    ensures a.FollowActivity? ==> r == ProcessFollow(st, a.follow, env.lookup, env.uuid)
    ensures a.UndoActivity? ==> r.state == ProcessUndo(st, a.undone)
    ensures !a.CreateActivity? ==> r.state.annotations == st.annotations
    ensures !a.FollowActivity? && !a.UndoActivity? ==> r.state.followers == st.followers
  {
    match a
    case CreateActivity(obj) =>
      if obj.CreatedNote? then
        Step(st.(annotations := ProcessIncomingNote(st.annotations, obj.note, env.clock)), [])
      else Step(st, [])
    case FollowActivity(f) => ProcessFollow(st, f, env.lookup, env.uuid)
    case UndoActivity(u) => Step(ProcessUndo(st, u), [])
    case OtherActivity => Step(st, [])
  }

  /** Delivering the same Create of a note with an id twice has the effect of
      delivering it once, whatever the environment of each delivery. */
  lemma ReceiveCreateIdempotent(st: State, note: IncomingNote, env1: Env, env2: Env)
    requires Truthy(note.id)
    ensures var a := CreateActivity(CreatedNote(note));
            var once := Receive(st, a, env1);
            Receive(once.state, a, env2) == once
  {
    IngestIdempotent(st.annotations, note, env1.clock, env2.clock);
  }
}

=== FILE: base.dfy ===
/** Small shared vocabulary: optional values and the JavaScript notion of a
    "truthy" string, which the source uses for every `x || default` and
    `if (x)` test on an optional field. */
module Base {

  datatype Option<+T> = None | Some(value: T)

  /** A JSON field that may be absent holds a string when present. In
      JavaScript both an absent field and the empty string are falsy. */
  predicate Truthy(o: Option<string>) {
    o.Some? && o.value != ""
  }

  /** `o || d` on an optional string field. */
  function OrElse(o: Option<string>, d: string): string {
    if Truthy(o) then o.value else d
  }
}

=== FILE: delivery.dfy ===
/** Outbound delivery of one activity to one remote inbox: a signed POST,
    retried with exponential backoff on server errors and transport failures,
    given up at once on any other unsuccessful status. */
module Delivery {
  import opened Signature

  /** What one fetch attempt observed. A response whose body could not be
      read throws inside the same `try` as a transport failure, so it is
      handled like one whatever its status. */
  datatype Outcome =
    | Answered(status: int)
    | BodyUnreadable(status: int)
    | TransportError

  /** `res.ok`: a 2xx status with its body read. */
  predicate Ok(o: Outcome) {
    o.Answered? && 200 <= o.status <= 299
  }

  /** Any other answered status below 500 ends delivery with failure. */
  predicate Terminal(o: Outcome) {
    o.Answered? && !Ok(o) && o.status < 500
  }

  /** 5xx answers, unreadable bodies and transport errors lead to a retry. */
  predicate Transient(o: Outcome) {
    !Ok(o) && !Terminal(o)
  }

  const MaxAttempts: nat := 5

  function Pow2(n: nat): (p: nat)
    ensures p >= 1
  {
    if n == 0 then 1 else 2 * Pow2(n - 1)
  }

  /** The pause after failed attempt `n` (1-based), in milliseconds. */
  function BackoffMillis(n: nat): nat {
    1000 * Pow2(n)
  }

  function Sum(s: seq<nat>): nat {
    if |s| == 0 then 0 else s[0] + Sum(s[1..])
  }

  /** The key id under which an actor signs. */
  function KeyIdOf(actorId: string): string {
    actorId + "#main-key"
  }

  datatype Request = Request(verb: string, url: string, headers: map<string, string>, body: string)

  /** The one request every attempt sends: a POST of the body to the inbox,
      signed under the actor's main key. */
  function SignedPost(body: string, actorId: string, inbox: Url, privateKey: string,
                      date: string, c: Crypto): Request
  {
    Request("POST", inbox.href,
            SignRequestHeaders("POST", inbox, body, KeyIdOf(actorId), privateKey, date, c), body)
  }

  /** The first `n` attempts all failed transiently. */
  predicate AllTransient(fetch: nat -> Outcome, n: nat) {
    forall k: nat :: k < n ==> Transient(fetch(k))
  }

  /** Reference definition: how many attempts the policy makes when the
      network answers attempt `k` (0-based) with `fetch(k)`. */
  function AttemptsFrom(fetch: nat -> Outcome, k: nat): (n: nat)
    requires k < MaxAttempts
    ensures k < n <= MaxAttempts
    decreases MaxAttempts - k
  {
    if !Transient(fetch(k)) || k == MaxAttempts - 1 then k + 1
    else AttemptsFrom(fetch, k + 1)
  }

  /** The attempts before the last one all failed transiently, and the last
      one is decisive unless the bound was reached. */
  lemma {:induction false} AttemptsFromShape(fetch: nat -> Outcome, k: nat)
    requires k < MaxAttempts
    ensures var n := AttemptsFrom(fetch, k);
            && (forall j :: k <= j < n - 1 ==> Transient(fetch(j)))
            && (n < MaxAttempts ==> !Transient(fetch(n - 1)))
    decreases MaxAttempts - k
  {
    if Transient(fetch(k)) && k < MaxAttempts - 1 {
      AttemptsFromShape(fetch, k + 1);
    }
  }

  /** `deliverActivity`. `body` is the JSON text of the activity, `date` the
      clock reading used for signing, and `fetch(k)` what attempt `k`
      observes. Returns whether delivery succeeded, the requests sent, and
      the pauses taken between them. */
  method DeliverActivity(body: string, actorId: string, inbox: Url, privateKey: string,
                         date: string, c: Crypto, fetch: nat -> Outcome)
    returns (delivered: bool, sent: seq<Request>, sleeps: seq<nat>)
    ensures 1 <= |sent| <= MaxAttempts
    ensures |sent| == AttemptsFrom(fetch, 0)
    ensures forall k :: 0 <= k < |sent| ==> sent[k] == SignedPost(body, actorId, inbox, privateKey, date, c)
    ensures delivered <==> Ok(fetch(|sent| - 1))
    ensures forall k :: 0 <= k < |sent| - 1 ==> Transient(fetch(k))
    ensures Terminal(fetch(|sent| - 1)) ==> !delivered
    ensures |sleeps| == |sent| - 1
    ensures forall k :: 0 <= k < |sleeps| ==> sleeps[k] == BackoffMillis(k + 1)
  {
    var request := SignedPost(body, actorId, inbox, privateKey, date, c);
    var attempt: nat := 0;
    sent := [];
    sleeps := [];
    while attempt < MaxAttempts
      invariant attempt <= MaxAttempts
      invariant |sent| == attempt
      invariant forall k :: 0 <= k < |sent| ==> sent[k] == request
      invariant AllTransient(fetch, attempt)
      invariant |sleeps| == if attempt == MaxAttempts then attempt - 1 else attempt
      invariant forall k :: 0 <= k < |sleeps| ==> sleeps[k] == BackoffMillis(k + 1)
    {
      var outcome := fetch(attempt);
      sent := sent + [request];
      if Ok(outcome) {
        delivered := true;
        AttemptsFromAt(fetch, attempt);
        return;
      }
      if Terminal(outcome) {
        delivered := false;
        AttemptsFromAt(fetch, attempt);
        return;
      }
      assert Transient(fetch(attempt));
      assert AllTransient(fetch, attempt + 1);
      attempt := attempt + 1;
      if attempt < MaxAttempts {
        sleeps := sleeps + [BackoffMillis(attempt)];
      }
    }
    delivered := false;
    AlwaysFailing(fetch);
  }

  /** Past a run of transient failures, the count only depends on where the
      run ends. */
  lemma AttemptsFromAt(fetch: nat -> Outcome, k: nat)
    requires k < MaxAttempts
    requires forall j :: 0 <= j < k ==> Transient(fetch(j))
    requires !Transient(fetch(k))
    ensures AttemptsFrom(fetch, 0) == k + 1
  {
    AttemptsFromSkip(fetch, 0, k);
  }

  lemma {:induction false} AttemptsFromSkip(fetch: nat -> Outcome, i: nat, k: nat)
    requires i <= k < MaxAttempts
    requires forall j :: i <= j < k ==> Transient(fetch(j))
    requires !Transient(fetch(k))
    ensures AttemptsFrom(fetch, i) == k + 1
    decreases k - i
  {
    if i < k {
      AttemptsFromSkip(fetch, i + 1, k);
    }
  }

  /** An inbox that always fails transiently is tried exactly five times,
      with pauses of 2, 4, 8 and 16 seconds, 30 seconds in all. */
  lemma AlwaysFailing(fetch: nat -> Outcome)
    requires forall k :: 0 <= k < MaxAttempts ==> Transient(fetch(k))
    ensures AttemptsFrom(fetch, 0) == MaxAttempts
    ensures [BackoffMillis(1), BackoffMillis(2), BackoffMillis(3), BackoffMillis(4)] == [2000, 4000, 8000, 16000]
    ensures Sum([BackoffMillis(1), BackoffMillis(2), BackoffMillis(3), BackoffMillis(4)]) == 30000
  {
    assert AttemptsFrom(fetch, 4) == 5;
    assert AttemptsFrom(fetch, 3) == 5;
    assert AttemptsFrom(fetch, 2) == 5;
    assert AttemptsFrom(fetch, 1) == 5;
  }
}

=== FILE: keys.dfy ===
/** The key registry: load the instance's RSA key pair from its key file, or
    generate one and write it there when the file is missing or cannot be
    parsed. The backend and the aggregator use the same logic over their own
    files. */
module Keys {
  import opened Base

  datatype KeyPair = KeyPair(publicKeyPem: string, privateKeyPem: string)

  /** The key file as the reader sees it: reading fails, the text is not a
      JSON key pair, or it parses to a pair. */
  datatype KeyFile = Missing | Unparseable(text: string) | Holds(pair: KeyPair)

  datatype KeyEncoding = Spki | Pkcs8

  /** The arguments handed to the key generator. */
  datatype GenerationRequest = GenerationRequest(
    algorithm: string,
    modulusLength: nat,
    publicKeyType: KeyEncoding,
    publicKeyFormat: string,
    privateKeyType: KeyEncoding,
    privateKeyFormat: string)

  const RsaRequest := GenerationRequest("rsa", 2048, Spki, "pem", Pkcs8, "pem")

  /** The pair returned, the key file afterwards, and the generator request
      issued, if any. */
  datatype Loaded = Loaded(pair: KeyPair, file: KeyFile, generated: Option<GenerationRequest>)

  /** `getOrCreateKeyPair`; `generatedPair` is what the generator would produce. */
  function GetOrCreateKeyPair(file: KeyFile, generatedPair: KeyPair): (l: Loaded)
    ensures l.file == Holds(l.pair)
    ensures file.Holds? ==> l.pair == file.pair && l.file == file
    ensures l.generated.Some? <==> !file.Holds?
    ensures l.generated.Some? ==> l.pair == generatedPair
    ensures l.generated.Some? ==>
              && l.generated.value.algorithm == "rsa"
              && l.generated.value.modulusLength == 2048
              && l.generated.value.publicKeyType == Spki && l.generated.value.publicKeyFormat == "pem"
              && l.generated.value.privateKeyType == Pkcs8 && l.generated.value.privateKeyFormat == "pem"
  {
    match file
    case Holds(pair) => Loaded(pair, file, None)
    case _ => Loaded(generatedPair, Holds(generatedPair), Some(RsaRequest))
  }

  /** Once a call has returned, the registry is stable: a second call returns
      the same pair, generates nothing and writes nothing, whatever the
      generator would have produced. */
  lemma SecondCallStable(file: KeyFile, generatedPair: KeyPair, otherPair: KeyPair)
    ensures var first := GetOrCreateKeyPair(file, generatedPair);
            var second := GetOrCreateKeyPair(first.file, otherPair);
            second.pair == first.pair && second.file == first.file && second.generated == None
  {
  }
}

=== FILE: legacy_server.dfy ===
/** The older standalone backend server: a list-based annotation store behind
    a per-client rate limiter, the annotation query and create endpoints, a
    static actor profile, an outbox built from the list, and an inbox that
    appends incoming notes. */
module LegacyServer {
  import opened Base
  import opened Text
  import opened Seqs
  import opened Annotations
  import Delivery

  const Host := "http://localhost:8080"

  // ---------------------------------------------------------------------
  // Rate limiting

  const WindowMillis := 1000
  const MaxPerWindow := 50

  /** Request timestamps per client key. */
  type Table = map<string, seq<int>>

  /** The client key: the forwarded-for header, or "unknown". */
  function ClientKey(forwardedFor: Option<string>): string {
    OrElse(forwardedFor, "unknown")
  }

  function History(table: Table, key: string): seq<int> {
    if key in table then table[key] else []
  }

  /** The timestamps less than a window old at `now`. */
  function Recent(ts: seq<int>, now: int): seq<int> {
    Filter(ts, (t: int) => now - t < WindowMillis)
  }

  datatype Admission = Admitted | TooManyRequests

  datatype Limited = Limited(admission: Admission, table: Table)

  /** The rate-limit middleware for one request arriving at `now`. */
  function RateLimit(table: Table, forwardedFor: Option<string>, now: int): (r: Limited)
    ensures var key := ClientKey(forwardedFor);
            var kept := Recent(History(table, key), now);
            && (r.admission == TooManyRequests <==> |kept| >= MaxPerWindow)
            && (r.admission == TooManyRequests ==> r.table == table)
            && (r.admission == Admitted ==>
                  && r.table.Keys == table.Keys + {key}
                  && (forall k :: k in table && k != key ==> r.table[k] == table[k])
                  && r.table[key] == kept + [now]
                  && |r.table[key]| <= MaxPerWindow
                  && (forall k :: 0 <= k < |r.table[key]| ==> now - r.table[key][k] < WindowMillis))
  {
    var key := ClientKey(forwardedFor);
    var kept := Recent(History(table, key), now);
    FilterAll(History(table, key), now);
    if |kept| >= MaxPerWindow then Limited(TooManyRequests, table)
    else Limited(Admitted, table[key := kept + [now]])
  }

  lemma FilterAll(ts: seq<int>, now: int)
    ensures forall k :: 0 <= k < |Recent(ts, now)| ==> now - Recent(ts, now)[k] < WindowMillis
  {
    var r := Recent(ts, now);
    forall k | 0 <= k < |r| ensures now - r[k] < WindowMillis {
      assert r[k] in multiset(r);
    }
  }

  /** Requests from one client, in arrival order: how many get through and
      the table afterwards. */
  function Replay(table: Table, forwardedFor: Option<string>, times: seq<int>): (nat, Table)
    decreases |times|
  {
    if |times| == 0 then (0, table)
    else
      var first := RateLimit(table, forwardedFor, times[0]);
      var rest := Replay(first.table, forwardedFor, times[1..]);
      (rest.0 + (if first.admission == Admitted then 1 else 0), rest.1)
  }

  /** How many timestamps fall in the window starting at `lo`. */
  function InWindow(ts: seq<int>, lo: int): (n: nat)
    ensures n <= |ts|
  {
    if |ts| == 0 then 0
    else InWindow(ts[1..], lo) + (if lo <= ts[0] < lo + WindowMillis then 1 else 0)
  }

  /** Filtering at a time inside the window keeps everything in the window. */
  lemma {:induction false} RecentKeepsWindow(ts: seq<int>, now: int, lo: int)
    requires lo <= now < lo + WindowMillis
    ensures InWindow(Recent(ts, now), lo) == InWindow(ts, lo)
    decreases |ts|
  {
    if |ts| > 0 {
      RecentKeepsWindow(ts[1..], now, lo);
      var rest := Recent(ts[1..], now);
      if now - ts[0] < WindowMillis {
        assert Recent(ts, now) == [ts[0]] + rest;
        assert ([ts[0]] + rest)[1..] == rest;
      } else {
        assert Recent(ts, now) == rest;
      }
    }
  }

  lemma {:induction false} InWindowAppend(ts: seq<int>, x: int, lo: int)
    ensures InWindow(ts + [x], lo) == InWindow(ts, lo) + (if lo <= x < lo + WindowMillis then 1 else 0)
    decreases |ts|
  {
    if |ts| > 0 {
      assert (ts + [x])[1..] == ts[1..] + [x];
      InWindowAppend(ts[1..], x, lo);
    }
  }

  /** Each admitted request inside the window adds one to the window's count,
      and none is admitted once the count reaches the limit. */
  lemma {:induction false} ReplayCounts(table: Table, forwardedFor: Option<string>, times: seq<int>, lo: int)
    requires forall k :: 0 <= k < |times| ==> lo <= times[k] < lo + WindowMillis
    ensures var key := ClientKey(forwardedFor);
            var r := Replay(table, forwardedFor, times);
            && InWindow(History(r.1, key), lo) == InWindow(History(table, key), lo) + r.0
            && (r.0 > 0 ==> InWindow(History(r.1, key), lo) <= MaxPerWindow)
    decreases |times|
  {
    if |times| > 0 {
      var key := ClientKey(forwardedFor);
      var now := times[0];
      var first := RateLimit(table, forwardedFor, now);
      ReplayCounts(first.table, forwardedFor, times[1..], lo);
      if first.admission == Admitted {
        var kept := Recent(History(table, key), now);
        RecentKeepsWindow(History(table, key), now, lo);
        InWindowAppend(kept, now, lo);
        assert History(first.table, key) == kept + [now];
      }
    }
  }

  /** However the table stood before, one client gets at most 50 requests
      through within any one-second window. */
  lemma AtMostFiftyPerSecond(table: Table, forwardedFor: Option<string>, times: seq<int>, lo: int)
    requires forall k :: 0 <= k < |times| ==> lo <= times[k] < lo + WindowMillis
    ensures Replay(table, forwardedFor, times).0 <= MaxPerWindow
  {
    ReplayCounts(table, forwardedFor, times, lo);
  }

  // ---------------------------------------------------------------------
  // The annotation list

  /** A stored record. Records created here have every field; records the
      inbox appended are stored as received, so any field may be absent. */
  datatype Record = Record(
    id: Option<string>,
    attributedTo: Option<string>,
    content: Option<string>,
    target: Option<Target>,
    published: Option<string>)

  datatype QueryResult = BadRequest | ServerError | Found(records: seq<Record>)

  /** The query filter: the stored href equals the url or occurs in it. */
  predicate Matches(url: string, href: string) {
    href == url || Includes(url, href)
  }

  /** GET /api/annotations as written: the filter reads `target.href` of every
      record, which throws for a record without a target. */
  function QueryAsWritten(store: seq<Record>, url: Option<string>): (r: QueryResult)
    ensures r.BadRequest? <==> !Truthy(url)
    ensures r.ServerError? <==> Truthy(url) && exists k :: 0 <= k < |store| && store[k].target.None?
    ensures r.Found? ==>
              && Subseq(r.records, store)
              && forall a :: multiset(r.records)[a] ==
                   if a.target.Some? && Matches(url.value, a.target.value.href) then multiset(store)[a] else 0
  {
    if !Truthy(url) then BadRequest
    else if exists k :: 0 <= k < |store| && store[k].target.None? then ServerError
    else Found(Filter(store, (a: Record) => a.target.Some? && Matches(url.value, a.target.value.href)))
  }

  /** A note without a target, accepted by the inbox, makes every later
      query fail. */
  lemma UntargetedNoteBreaksQuery(note: Record, url: string)
    requires note.target.None? && url != ""
    ensures var activity := Activity("Create", Some(Object("Note", note)));
            var store := ReceiveInbox([], activity).1;
            QueryAsWritten(store, Some(url)) == ServerError
  {
    var store := ReceiveInbox([], Activity("Create", Some(Object("Note", note)))).1;
    assert store[0].target.None?;
  }

  /** GET /api/annotations, skipping records without a target: the records
      whose href equals the url or occurs in it, each as often as stored, in
      stored order. */
  function Query(store: seq<Record>, url: Option<string>): (r: QueryResult)
    ensures r.BadRequest? <==> !Truthy(url)
    ensures !r.ServerError?
    ensures r.Found? ==>
              && Subseq(r.records, store)
              && forall a :: multiset(r.records)[a] ==
                   if a.target.Some? && Matches(url.value, a.target.value.href) then multiset(store)[a] else 0
  {
    if !Truthy(url) then BadRequest
    else Found(Filter(store, (a: Record) => a.target.Some? && Matches(url.value, a.target.value.href)))
  }

  /** The exact-match test is subsumed by containment, so a record whose href
      is empty matches every url. */
  lemma MatchesIsContainment(url: string, href: string)
    ensures Matches(url, href) <==> Includes(url, href)
    ensures Matches(url, "")
  {
    IncludesSelf(url);
    IncludesEmpty(url);
  }

  /** Where no record lacks a target, the corrected query agrees with the
      query as written. */
  lemma QueryAgreesWhenTargeted(store: seq<Record>, url: Option<string>)
    requires forall k :: 0 <= k < |store| ==> store[k].target.Some?
    ensures Query(store, url) == QueryAsWritten(store, url)
  {
  }

  datatype TargetInput = TargetInput(href: Option<string>, selector: Option<Selector>)

  datatype CreateBody = CreateBody(content: Option<string>, target: Option<TargetInput>, author: Option<string>)

  predicate ValidCreate(body: CreateBody) {
    Truthy(body.content) && body.target.Some? && Truthy(body.target.value.href)
  }

  datatype CreateResult = Invalid | Created(record: Record)

  /** POST /api/annotations; `uuid` and `nowIso` are the random id part and
      the clock reading. */
  function CreateAnnotation(store: seq<Record>, body: CreateBody, uuid: string, nowIso: string)
    : (r: (CreateResult, seq<Record>))
    ensures !ValidCreate(body) <==> r.0.Invalid?
    ensures r.0.Invalid? ==> r.1 == store
    ensures r.0.Created? ==>
              && r.1 == store + [r.0.record]
              && r.0.record.id == Some(Host + "/annotations/" + uuid)
              && r.0.record.content == body.content
              && r.0.record.target == Some(Target(body.target.value.href.value, body.target.value.selector))
              && r.0.record.attributedTo == Some(OrElse(body.author, Host + "/users/guest"))
              && r.0.record.published == Some(nowIso)
  {
    if !ValidCreate(body) then (Invalid, store)
    else
      var record := Record(
        Some(Host + "/annotations/" + uuid),
        Some(OrElse(body.author, Host + "/users/guest")),
        body.content,
        Some(Target(body.target.value.href.value, body.target.value.selector)),
        Some(nowIso));
      (Created(record), store + [record])
  }

  /** A created annotation is returned by a query for its own page. */
  lemma {:induction false} CreatedIsFound(store: seq<Record>, body: CreateBody, uuid: string, nowIso: string)
    requires ValidCreate(body)
    ensures var (res, store') := CreateAnnotation(store, body, uuid, nowIso);
            var q := Query(store', body.target.value.href);
            q.Found? && res.Created? && res.record in q.records
    ensures var (res, store') := CreateAnnotation(store, body, uuid, nowIso);
            (forall k :: 0 <= k < |store| ==> store[k].target.Some?) ==>
              QueryAsWritten(store', body.target.value.href) == Query(store', body.target.value.href)
  {
    var (res, store') := CreateAnnotation(store, body, uuid, nowIso);
    var url := body.target.value.href;
    IncludesSelf(url.value);
    var p := (a: Record) => a.target.Some? && Matches(url.value, a.target.value.href);
    assert p(res.record);
    assert res.record in store';
    FilterMembership(store', p, res.record);
    if forall k :: 0 <= k < |store| ==> store[k].target.Some? {
      assert forall k :: 0 <= k < |store'| ==> store'[k].target.Some? by {
        forall k | 0 <= k < |store'| ensures store'[k].target.Some? {
          if k < |store| { assert store'[k] == store[k]; }
        }
      }
      QueryAgreesWhenTargeted(store', url);
    }
  }

  // ---------------------------------------------------------------------
  // Actor profile and outbox

  datatype Actor = Actor(
    context: seq<string>,
    id: string,
    preferredUsername: string,
    inbox: string,
    outbox: string,
    keyId: string,
    keyOwner: string,
    publicKeyPem: string)

  const MockPublicKeyPem := "-----BEGIN PUBLIC KEY-----\n...MOCK KEY...\n-----END PUBLIC KEY-----"

  function ActorId(name: string): string {
    Host + "/users/" + name
  }

  /** GET /users/:name: every name has a profile, whose collections and key
      hang off its id. */
  function ActorProfile(name: string): (a: Actor)
    ensures a.preferredUsername == name
    ensures a.inbox == a.id + "/inbox" && a.outbox == a.id + "/outbox"
    ensures a.keyId == Delivery.KeyIdOf(a.id) && a.keyOwner == a.id
    ensures a.publicKeyPem == MockPublicKeyPem
  {
    var id := ActorId(name);
    Actor(["https://www.w3.org/ns/activitystreams", "https://w3id.org/security/v1"],
          id, name, id + "/inbox", id + "/outbox", id + "#main-key", id, MockPublicKeyPem)
  }

  /** The profile's URLs hang off its id: the name is the id's last path
      segment, the inbox ends in `/users/<name>/inbox`, and the key id is the
      one outbound deliveries sign under. */
  lemma {:induction false} ActorProfileLayout(name: string)
    requires '/' !in name
    ensures var a := ActorProfile(name);
            && a.id == Host + "/users/" + name
            && a.preferredUsername == name
            && LastSegment(a.id) == name
            && a.inbox == a.id + "/inbox" && a.outbox == a.id + "/outbox"
            && a.inbox[|a.inbox| - |"/users/" + name + "/inbox"|..] == "/users/" + name + "/inbox"
            && a.keyId == Delivery.KeyIdOf(a.id)
            && a.keyOwner == a.id
  {
    var a := ActorProfile(name);
    assert a.id == "http://localhost:8080/users" + "/" + name;
    LastSegmentAfterSlash("http://localhost:8080/users", name);
    assert a.inbox == "http://localhost:8080" + ("/users/" + name + "/inbox");
  }

  datatype CreateItem = CreateItem(actor: string, note: Record)

  datatype OrderedCollection = OrderedCollection(id: string, totalItems: nat, orderedItems: seq<CreateItem>)

  function Notes(items: seq<CreateItem>): (notes: seq<Record>)
    ensures |notes| == |items|
    ensures forall k :: 0 <= k < |items| ==> notes[k] == items[k].note
  {
    seq(|items|, k requires 0 <= k < |items| => items[k].note)
  }

  /** An annotation created with an actor as its author is listed in that
      actor's outbox, wrapped in a Create by the actor. */
  lemma CreatedInOutbox(store: seq<Record>, body: CreateBody, uuid: string, nowIso: string, name: string)
    requires ValidCreate(body) && body.author == Some(ActorId(name))
    ensures var (res, store') := CreateAnnotation(store, body, uuid, nowIso);
            var items := Outbox(store', name).orderedItems;
            res.Created? && exists k :: 0 <= k < |items| && items[k] == CreateItem(ActorId(name), res.record)
  {
    var (res, store') := CreateAnnotation(store, body, uuid, nowIso);
    var items := Outbox(store', name).orderedItems;
    assert res.record in multiset(store');
    assert res.record in multiset(Notes(items));
    var k :| 0 <= k < |Notes(items)| && Notes(items)[k] == res.record;
    assert items[k] == CreateItem(ActorId(name), res.record);
  }

  /** GET /users/:name/outbox: the records attributed to the actor, each
      wrapped in a Create by that actor, in stored order. */
  function Outbox(store: seq<Record>, name: string): (c: OrderedCollection)
    ensures c.id == ActorProfile(name).outbox
    ensures c.totalItems == |c.orderedItems|
    ensures forall k :: 0 <= k < |c.orderedItems| ==>
              c.orderedItems[k].actor == ActorId(name) && c.orderedItems[k].note.attributedTo == Some(ActorId(name))
    ensures Subseq(Notes(c.orderedItems), store)
    ensures forall a :: multiset(Notes(c.orderedItems))[a] ==
              if a.attributedTo == Some(ActorId(name)) then multiset(store)[a] else 0
  {
    var id := ActorId(name);
    var mine := Filter(store, (a: Record) => a.attributedTo == Some(id));
    var items := seq(|mine|, k requires 0 <= k < |mine| => CreateItem(id, mine[k]));
    assert Notes(items) == mine;
    forall k | 0 <= k < |mine| ensures mine[k].attributedTo == Some(id) {
      assert mine[k] in multiset(mine);
    }
    OrderedCollection(id + "/outbox", |mine|, items)
  }

  // ---------------------------------------------------------------------
  // Inbox

  datatype Object = Object(kind: string, note: Record)

  datatype Activity = Activity(kind: string, obj: Option<Object>)

  predicate IsCreateNote(a: Activity) {
    a.kind == "Create" && a.obj.Some? && a.obj.value.kind == "Note"
  }

  /** Some stored record carries this id (absent ids compare equal). The
      aggregator's note list has a predicate of the same shape over its own
      record type; the two servers keep separate stores. */
  predicate HasId(store: seq<Record>, id: Option<string>) {
    exists k :: 0 <= k < |store| && store[k].id == id
  }

  /** POST /users/:name/inbox: always 202; appends a Create's Note when no
      stored record has its id. */
  function ReceiveInbox(store: seq<Record>, a: Activity): (r: (int, seq<Record>))
    ensures r.0 == 202
    ensures IsCreateNote(a) && !HasId(store, a.obj.value.note.id) ==> r.1 == store + [a.obj.value.note]
    ensures !(IsCreateNote(a) && !HasId(store, a.obj.value.note.id)) ==> r.1 == store
  {
    if IsCreateNote(a) && !HasId(store, a.obj.value.note.id) then (202, store + [a.obj.value.note])
    else (202, store)
  }

  /** No two records share an id. */
  predicate UniqueIds(store: seq<Record>) {
    forall i, j :: 0 <= i < j < |store| ==> store[i].id != store[j].id
  }

  /** The inbox never introduces a second record with the same id, and a
      repeated delivery changes nothing. */
  lemma InboxKeepsIdsUnique(store: seq<Record>, a: Activity)
    requires UniqueIds(store)
    ensures UniqueIds(ReceiveInbox(store, a).1)
    ensures ReceiveInbox(ReceiveInbox(store, a).1, a) == ReceiveInbox(store, a)
  {
    var s1 := ReceiveInbox(store, a).1;
    if IsCreateNote(a) && !HasId(store, a.obj.value.note.id) {
      assert s1[|store|].id == a.obj.value.note.id;
      assert HasId(s1, a.obj.value.note.id);
    }
  }
}

=== FILE: seqs.dfy ===
/** `Array.prototype.filter`, which every list-shaped store of the source is
    queried through. */
module Seqs {

  /** `r` is obtained from `s` by deleting elements: it keeps the order of `s`. */
  predicate Subseq<T(==)>(r: seq<T>, s: seq<T>)
    decreases |s|
  {
    if |r| == 0 then true
    else if |s| == 0 then false
    else if r[0] == s[0] then Subseq(r[1..], s[1..])
    else Subseq(r, s[1..])
  }

  /** `s.filter(p)`: the elements satisfying `p`, each as often as in `s`,
      none of the others, in the order of `s`. */
  function Filter<T(==,!new)>(s: seq<T>, p: T -> bool): (r: seq<T>)
    ensures forall x :: multiset(r)[x] == if p(x) then multiset(s)[x] else 0
    ensures Subseq(r, s)
    decreases |s|
  {
    if |s| == 0 then []
    else
      var rest := Filter(s[1..], p);
      assert s == [s[0]] + s[1..];
      if p(s[0]) then
        assert ([s[0]] + rest)[1..] == rest;
        [s[0]] + rest
      else
        SubseqDropHead(rest, s);
        rest
  }

  lemma {:induction false} SubseqDropHead<T>(r: seq<T>, s: seq<T>)
    requires |s| >= 1
    requires Subseq(r, s[1..])
    ensures Subseq(r, s)
    decreases |s|, 0
  {
    if |r| > 0 && r[0] == s[0] {
      // Subseq(r[1..], s[1..]) follows from Subseq(r, s[1..]).
      SubseqTail(r, s[1..]);
    }
  }

  lemma {:induction false} SubseqTail<T>(r: seq<T>, s: seq<T>)
    requires |r| >= 1
    requires Subseq(r, s)
    ensures Subseq(r[1..], s)
    decreases |s|, 1
  {
    if |r[1..]| > 0 {
      if r[0] == s[0] {
        SubseqDropHead(r[1..], s);
      } else {
        SubseqTail(r, s[1..]);
        SubseqDropHead(r[1..], s);
      }
    }
  }

  /** Filtering distributes over appending one element. */
  lemma {:induction false} FilterAppend<T(!new)>(s: seq<T>, x: T, p: T -> bool)
    ensures p(x) ==> Filter(s + [x], p) == Filter(s, p) + [x]
    ensures !p(x) ==> Filter(s + [x], p) == Filter(s, p)
    decreases |s|
  {
    if |s| == 0 {
      assert s + [x] == [x];
    } else {
      assert (s + [x])[1..] == s[1..] + [x];
      FilterAppend(s[1..], x, p);
    }
  }

  lemma FilterMembership<T(!new)>(s: seq<T>, p: T -> bool, x: T)
    ensures x in Filter(s, p) <==> x in s && p(x)
  {
    var r := Filter(s, p);
    assert x in r <==> multiset(r)[x] > 0;
    assert x in s <==> multiset(s)[x] > 0;
  }
}

=== FILE: signature.dfy ===
/** HTTP message signing for outbound deliveries, in the layout of
    draft-cavage-http-signatures-12: the signing string of its section 2.3
    over `(request-target)`, `host`, `date` and `digest`, the `Signature`
    header parameters of its section 2.1, and a `Digest` header in the form of
    section 4.3.2 of RFC 3230. Hashing, base64 and RSA signing are opaque. */
module Signature {
  import opened Base
  import opened Text

  /** A parsed URL: the text it was parsed from and the parts the signer reads. */
  datatype Url = Url(href: string, host: string, pathname: string, search: string)

  /** The cryptographic primitives: base64 of the SHA-256 of a text, and the
      base64 RSA-SHA256 signature of a text under a PEM private key. */
  datatype Crypto = Crypto(
    sha256Base64: string -> string,
    signBase64: (string, string) -> string)

  /** The signed pseudo-header and header names, in signing order. */
  const SignedNames: seq<string> := ["(request-target)", "host", "date", "digest"]

  /** The names of the returned headers. */
  const HeaderNames: set<string> := {"Date", "Host", "Digest", "Signature", "Content-Type", "Accept"}

  const ActivityJson := "application/activity+json"

  function RequestTarget(verb: string, url: Url): string {
    ToLower(verb) + " " + url.pathname
  }

  function Digest(c: Crypto, body: string): string {
    "SHA-256=" + c.sha256Base64(body)
  }

  function Line(name: string, value: string): string {
    name + ": " + value
  }

  /** The four values signed, in the order of `SignedNames`. */
  function SignedValues(verb: string, url: Url, body: string, date: string, c: Crypto): seq<string> {
    [RequestTarget(verb, url), url.host, date, Digest(c, body)]
  }

  function SigningLines(verb: string, url: Url, body: string, date: string, c: Crypto): seq<string> {
    var v := SignedValues(verb, url, body, date, c);
    [Line(SignedNames[0], v[0]), Line(SignedNames[1], v[1]),
     Line(SignedNames[2], v[2]), Line(SignedNames[3], v[3])]
  }

  function SigningString(verb: string, url: Url, body: string, date: string, c: Crypto): string {
    Join(SigningLines(verb, url, body, date, c), '\n')
  }

  /** A `name="value"` signature parameter. */
  function Quoted(name: string, value: string): string {
    name + "=\"" + value + "\""
  }

  function SignatureParams(keyId: string, signature: string): seq<string> {
    [Quoted("keyId", keyId), Quoted("algorithm", "rsa-sha256"),
     Quoted("headers", Join(SignedNames, ' ')), Quoted("signature", signature)]
  }

  function SignatureHeader(keyId: string, signature: string): string {
    Join(SignatureParams(keyId, signature), ',')
  }

  /** `signRequestHeaders`; `date` is the clock's UTC rendering. The result
      is a record of six headers. */
  function SignRequestHeaders(verb: string, url: Url, body: string, keyId: string,
                              privateKey: string, date: string, c: Crypto): (h: map<string, string>)
    ensures h.Keys == HeaderNames && |h| == 6
    ensures h["Date"] == date && h["Host"] == url.host
    ensures h["Digest"] == "SHA-256=" + c.sha256Base64(body)
    ensures h["Signature"]
            == SignatureHeader(keyId, c.signBase64(privateKey, SigningString(verb, url, body, date, c)))
    ensures h["Content-Type"] == ActivityJson && h["Accept"] == ActivityJson
  {
    var signature := c.signBase64(privateKey, SigningString(verb, url, body, date, c));
    map[
      "Date" := date,
      "Host" := url.host,
      "Digest" := Digest(c, body),
      "Signature" := SignatureHeader(keyId, signature),
      "Content-Type" := ActivityJson,
      "Accept" := ActivityJson]
  }

  lemma LowerKeepsNewlineOut(s: string)
    requires '\n' !in s
    ensures '\n' !in ToLower(s)
  {
    var r := ToLower(s);
    forall k | 0 <= k < |r| ensures r[k] != '\n' {
      assert r[k] == LowerChar(s[k]);
    }
  }

  /** The signing string read back line by line is exactly the four
      `name: value` lines, in signing order, and its values are the ones the
      returned `Date`, `Host` and `Digest` headers carry. Header values never
      hold a line break, which is what the hypotheses say. */
  lemma {:induction false} SigningStringLines(verb: string, url: Url, body: string, keyId: string,
                                              privateKey: string, date: string, c: Crypto)
    requires '\n' !in verb && '\n' !in url.pathname && '\n' !in url.host
    requires '\n' !in date && '\n' !in c.sha256Base64(body)
    ensures var h := SignRequestHeaders(verb, url, body, keyId, privateKey, date, c);
            var lines := Split(SigningString(verb, url, body, date, c), '\n');
            && |lines| == 4
            && lines[0] == "(request-target): " + ToLower(verb) + " " + url.pathname
            && lines[1] == "host: " + h["Host"]
            && lines[2] == "date: " + h["Date"]
            && lines[3] == "digest: " + h["Digest"]
  {
    LowerKeepsNewlineOut(verb);
    var ls := SigningLines(verb, url, body, date, c);
    assert NoneContains(ls, '\n');
    SplitJoin(ls, '\n');
  }

  /** The query string never reaches the signature. This is a framing
      statement: the signer reads only the URL's path, so it holds by
      construction; the request target itself is pinned down by line 0 of
      `SigningStringLines`. */
  lemma RequestTargetIgnoresQuery(verb: string, url: Url, body: string, keyId: string,
                                  privateKey: string, date: string, c: Crypto, search: string)
    ensures SignRequestHeaders(verb, url.(search := search), body, keyId, privateKey, date, c)
         == SignRequestHeaders(verb, url, body, keyId, privateKey, date, c)
  {
  }

  /** Reads the value out of a `name="value"` parameter. */
  function Unquote(name: string, item: string): Option<string> {
    var opening := name + "=\"";
    if |item| >= |opening| + 1 && item[..|opening|] == opening && item[|item| - 1] == '"'
    then Some(item[|opening|..|item| - 1])
    else None
  }

  lemma UnquoteQuoted(name: string, value: string)
    ensures Unquote(name, Quoted(name, value)) == Some(value)
  {
    var item := Quoted(name, value);
    var opening := name + "=\"";
    assert item == opening + value + "\"";
    assert item[..|opening|] == opening;
    assert item[|opening|..|item| - 1] == value;
  }

  /** The `Signature` header read back: split at commas it gives the four
      parameters `keyId`, `algorithm`, `headers`, `signature` in that order;
      `keyId` is the key id given, `algorithm` is `rsa-sha256`, and `headers`
      split at spaces is exactly the list of signed names, so a verifier
      rebuilds the same lines the signer signed. Base64 holds no comma, and
      a key id without one is assumed. */
  lemma {:induction false} SignatureHeaderParams(verb: string, url: Url, body: string, keyId: string,
                                                 privateKey: string, date: string, c: Crypto)
    requires ',' !in keyId
    requires ',' !in c.signBase64(privateKey, SigningString(verb, url, body, date, c))
    ensures var h := SignRequestHeaders(verb, url, body, keyId, privateKey, date, c);
            var items := Split(h["Signature"], ',');
            && |items| == 4
            && Unquote("keyId", items[0]) == Some(keyId)
            && Unquote("algorithm", items[1]) == Some("rsa-sha256")
            && Unquote("headers", items[2]).Some?
            && Split(Unquote("headers", items[2]).value, ' ') == SignedNames
            && Unquote("signature", items[3])
               == Some(c.signBase64(privateKey, SigningString(verb, url, body, date, c)))
  {
    var sig := c.signBase64(privateKey, SigningString(verb, url, body, date, c));
    var ps := SignatureParams(keyId, sig);
    HeadersParam();
    QuotedHasNoComma("keyId", keyId);
    QuotedHasNoComma("algorithm", "rsa-sha256");
    QuotedHasNoComma("headers", Join(SignedNames, ' '));
    QuotedHasNoComma("signature", sig);
    assert NoneContains(ps, ',');
    SplitJoin(ps, ',');
    UnquoteQuoted("keyId", keyId);
    UnquoteQuoted("algorithm", "rsa-sha256");
    UnquoteQuoted("headers", Join(SignedNames, ' '));
    UnquoteQuoted("signature", sig);
  }

  lemma QuotedHasNoComma(name: string, value: string)
    requires ',' !in name && ',' !in value
    ensures ',' !in Quoted(name, value)
  {
  }

  /** The `headers` parameter lists the signed names separated by spaces. */
  lemma HeadersParam()
    ensures ',' !in Join(SignedNames, ' ')
    ensures Split(Join(SignedNames, ' '), ' ') == SignedNames
  {
    assert NoneContains(SignedNames, ' ');
    assert NoneContains(SignedNames, ',');
    JoinAvoids(SignedNames, ' ', ',');
    SplitJoin(SignedNames, ' ');
  }
}

=== FILE: text.dfy ===
/** String operations the source takes from the JavaScript runtime:
    `split`, `join`, `includes` and ASCII lower-casing. */
module Text {

  /** `parts.join(sep)` for a one-character separator. */
  function Join(parts: seq<string>, sep: char): string
    decreases |parts|
  {
    if |parts| == 0 then ""
    else if |parts| == 1 then parts[0]
    else parts[0] + [sep] + Join(parts[1..], sep)
  }

  /** `s.split(sep)` for a one-character separator: the maximal runs between
      separators, so the result always has one more element than `s` has
      separators, and `"".split(sep)` is `[""]`. */
  function Split(s: string, sep: char): (r: seq<string>)
    ensures |r| >= 1
    ensures forall k :: 0 <= k < |r| ==> sep !in r[k]
    decreases |s|
  {
    if |s| == 0 then [""]
    else if s[0] == sep then [""] + Split(s[1..], sep)
    else
      var rest := Split(s[1..], sep);
      [[s[0]] + rest[0]] + rest[1..]
  }

  predicate NoneContains(parts: seq<string>, c: char) {
    forall k :: 0 <= k < |parts| ==> c !in parts[k]
  }

  lemma {:induction false} SplitNoSep(a: string, sep: char)
    requires sep !in a
    ensures Split(a, sep) == [a]
    decreases |a|
  {
    if |a| > 0 {
      SplitNoSep(a[1..], sep);
      assert [a[0]] + a[1..] == a;
    }
  }

  /** Splitting at one separator splits the two sides independently. */
  lemma {:induction false} SplitAround(a: string, sep: char, b: string)
    ensures Split(a + [sep] + b, sep) == Split(a, sep) + Split(b, sep)
    decreases |a|
  {
    var s := a + [sep] + b;
    if |a| == 0 {
      assert s[0] == sep && s[1..] == b;
    } else {
      assert s[0] == a[0];
      assert s[1..] == a[1..] + [sep] + b;
      SplitAround(a[1..], sep, b);
    }
  }

  /** Splitting a joined list on its separator gives the list back when no
      element contains the separator. */
  lemma {:induction false} SplitJoin(parts: seq<string>, sep: char)
    requires |parts| >= 1
    requires NoneContains(parts, sep)
    ensures Split(Join(parts, sep), sep) == parts
    decreases |parts|
  {
    if |parts| == 1 {
      SplitNoSep(parts[0], sep);
    } else {
      SplitJoin(parts[1..], sep);
      SplitAround(parts[0], sep, Join(parts[1..], sep));
      SplitNoSep(parts[0], sep);
      assert [parts[0]] + parts[1..] == parts;
    }
  }

  /** A character that no part holds, other than the separator, is not in the join. */
  lemma {:induction false} JoinAvoids(parts: seq<string>, sep: char, c: char)
    requires c != sep && NoneContains(parts, c)
    ensures c !in Join(parts, sep)
    decreases |parts|
  {
    if |parts| > 1 {
      JoinAvoids(parts[1..], sep, c);
    }
  }

  function Last(parts: seq<string>): string
    requires |parts| >= 1
  {
    parts[|parts| - 1]
  }

  /** `path.split('/')` followed by taking the last element: the text after
      the final '/', or the whole path when it has none. */
  function LastSegment(path: string): (r: string)
    ensures '/' !in r
  {
    Last(Split(path, '/'))
  }

  /** The last segment of `prefix + "/" + h` is `h` whenever `h` holds no
      slash, whatever the prefix. */
  lemma LastSegmentAfterSlash(prefix: string, h: string)
    requires '/' !in h
    ensures LastSegment(prefix + "/" + h) == h
  {
    assert prefix + "/" + h == prefix + ['/'] + h;
    SplitAround(prefix, '/', h);
    SplitNoSep(h, '/');
  }

  /** `hay` holds `needle` starting at position `i`. */
  predicate OccursAt(hay: string, needle: string, i: int) {
    0 <= i && i + |needle| <= |hay| && hay[i..i + |needle|] == needle
  }

  /** `hay.includes(needle)`: the empty needle occurs everywhere. */
  function Includes(hay: string, needle: string): (b: bool)
    ensures b <==> exists i :: OccursAt(hay, needle, i)
    decreases |hay|
  {
    if |needle| <= |hay| && hay[..|needle|] == needle then
      assert OccursAt(hay, needle, 0);
      true
    else if |hay| == 0 then
      assert forall i :: !OccursAt(hay, needle, i);
      false
    else
      var r := Includes(hay[1..], needle);
      assert forall i :: OccursAt(hay[1..], needle, i) <==> OccursAt(hay, needle, i + 1);
      assert !OccursAt(hay, needle, 0);
      assert forall i :: OccursAt(hay, needle, i) ==> i >= 1 && OccursAt(hay[1..], needle, i - 1);
      r
  }

  lemma IncludesSelf(s: string)
    ensures Includes(s, s)
  {
    assert OccursAt(s, s, 0);
  }

  lemma IncludesEmpty(s: string)
    ensures Includes(s, "")
  {
    assert OccursAt(s, "", 0);
  }

  predicate IsUpperAscii(c: char) {
    'A' <= c <= 'Z'
  }

  function LowerChar(c: char): char {
    if IsUpperAscii(c) then (c as int + 32) as char else c
  }

  /** `s.toLowerCase()`, restricted to ASCII letters. */
  function ToLower(s: string): (r: string)
    ensures |r| == |s|
    ensures forall k :: 0 <= k < |s| ==> r[k] == LowerChar(s[k])
    decreases |s|
  {
    if |s| == 0 then "" else [LowerChar(s[0])] + ToLower(s[1..])
  }
}
